=== FILE: README.md ===
# Camp registration server: a Dafny model of its store bookkeeping

The server behind the "camp-aid" site keeps three MongoDB collections:
`users` (`{email, role}`), `camps` (an uploaded camp body with a
`participants` counter) and `registered_users` (a registration body naming a
`campId` and an `email`). Its Express handlers in `mongoDB.js` log users in,
gate admin routes, upload and delete camps, delete users, and register a
participant for a camp. This project models that bookkeeping. It treats the
collections as in-memory tables in natural order, keyed by an abstract,
store-generated `_id`. It proves what each handler does to the tables, and
which invariants the handlers keep.

Layout:

- `documents.dfy` (module `Documents`): the documents, the decoded caller
  identity, the handler replies, and the constants `"admin"`,
  `"participant"` and 403.
- `collections.dfy` (module `Collections`): the driver calls the handlers use.
  `findOne` returns the first match in natural order. `updateOne` with
  `$inc: {participants: 1}` creates a missing counter with value 1.
  `deleteOne` removes the first document with the given `_id`. The module
  also counts registrations per camp.
- `auth.dfy` (module `Auth`): `verifyEmail`, `verifyAdmin` and the
  `/check/:email` flag, as pure decisions over `users` and the caller.
- `routes.dfy` (module `Routes`): each mutating route as a transition of the
  whole store (`Db`). The module defines the invariant `Consistent`:
  - `_id`s are unique;
  - emails are unique in `users`;
  - there is at most one registration per (campId, email) pair;
  - every existing camp's `participants` equals the number of registrations
    naming it.
  The lemmas about the routes are here.
- `server.dfy` (module `Server`): class `Store`. Its fields are the three
  collections and the `_id` source. Its driver-call methods update them in
  place. Each route method makes the same driver calls in the same order as
  the handler, except that the admin routes use the corrected admin gate (see
  "## Left out"). Each route method is proved equal to its `Routes`
  transition.

Behaviour worth knowing, modelled as written:

- `POST /register-campaign` passes only `verifyToken`. It never compares the
  body's `email` with the caller's, so the model takes no caller for it.
- A registration whose `campId` names no camp is still stored. Its `$inc`
  matches nothing.
- Deleting a camp leaves its registrations in place.
- An uploaded camp body is stored as is. If it carries a `participants`
  value that does not match the registrations already naming the new `_id`,
  the counter invariant breaks. `Routes.UploadCampConsistent` states exactly
  when it holds.
- A duplicate registration is answered with `{acknowledged: false}`, an
  ordinary reply, not an error.
- No handler cancels a registration, so no code path ever decrements
  `participants`.

## Model

| member | source | states |
|---|---|---|
| `Collections.IndexOfId` | mongoDB.js:192-193 | the `_id` filter selects the first document with that `_id`: none before it has it, and the result is `|c|` when none does |
| `Collections.FindIndex` | mongoDB.js:185 | a filter selects the first matching document in natural order; none before it matches |
| `Collections.FindOne` | mongoDB.js:184-185 | `findOne` finds nothing exactly when no document matches; otherwise it returns a stored document that matches |
| `Collections.DeleteOne` | mongoDB.js:141-142 | `deleteOne` reports 1 exactly when a document had the `_id`. It removes that many documents and keeps the rest in order. |
| `Collections.DeleteOneExactly` | mongoDB.js:176-177 | with unique `_id`s, after `deleteOne` no document has the `_id`, every other document remains, and `_id`s stay unique |
| `Collections.Inc` | mongoDB.js:194 | `$inc: {participants: 1}` raises the shown count by exactly one (a missing field becomes 1) and keeps the other fields |
| `Collections.IncParticipants` | mongoDB.js:192-195 | `updateOne` increments only the first camp with that `_id`. Lengths and `_id`s are kept, and every other camp is unchanged. |
| `Collections.IncParticipantsExactly` | mongoDB.js:192-195 | with unique `_id`s, exactly the camp with that `_id` is incremented; with no such camp the collection is unchanged |
| `Collections.CountFor` | mongoDB.js:191-195 | the count of registrations naming a camp is 0 exactly when none names it |
| `Collections.CountForAppend` | mongoDB.js:191 | inserting a registration raises its own camp's count by one and no other camp's |
| `Auth.IsAdmin` | mongoDB.js:65-66 | `user?.role === "admin"` is true only if some user with that email is an admin, and false when no user has that email |
| `Auth.IsAdminExactly` | mongoDB.js:121-124 | with unique emails, the admin decision holds exactly when a user with that email has role `"admin"` |
| `Auth.VerifyEmail` | mongoDB.js:53-59 | the request passes exactly when the token email is the path email, as a string; otherwise 403 "Unauthorized Access". A token email that is a query object never passes. |
| `Auth.VerifyAdmin` | mongoDB.js:62-71 | the corrected gate. It passes only a string token email with an admin record, and refuses callers with no record. Any refusal is 403 "Forbidden Access". With unique emails, it passes exactly when a user with the caller's email has role `"admin"`. |
| `Auth.CheckAdmin` | mongoDB.js:118-129 | another email gets 403. The caller's own email gets `{admin}`, true exactly when `verifyAdmin` would let the caller through. |
| `Auth.VerifyAdminAsWritten` | mongoDB.js:62-71 | `verifyAdmin` as written. On a string token email it decides exactly as `Auth.VerifyAdmin`. A `{$ne: null}` token passes exactly when the first user is an admin. Passing implies that some user the filter matches is an admin, and any refusal is 403 "Forbidden Access". |
| `Auth.OperatorTokenPassesAsWritten` | mongoDB.js:63-66 | when the first user is an admin, a `{$ne: null}` token passes `verifyAdmin` as written, and the corrected gate refuses it |
| `Routes.PairCount` | mongoDB.js:184-186 | the number of registrations for a (campId, email) pair is 0 exactly when `findOne` on that pair finds nothing |
| `Routes.Login` | mongoDB.js:74-91 | login leaves camps and registrations alone and keeps every existing user record as it was. Afterwards a user with that email exists. |
| `Routes.LoginIdempotent` | mongoDB.js:76-81 | a repeated login with the same email changes nothing |
| `Routes.LoginCreatesParticipant` | mongoDB.js:76-81 | a known email leaves the store unchanged. A new email gets exactly one `{email, role: "participant"}` record, which is not an admin. |
| `Routes.LoginPreservesConsistent` | mongoDB.js:76-81 | login keeps the store consistent, in particular unique emails |
| `Routes.UploadCamp` | mongoDB.js:147-151 | a non-admin gets 403 and nothing changes. For an admin, exactly the body is appended under the next store-generated `_id`, which is returned; users and registrations are untouched. Gated by the corrected `Auth.VerifyAdmin` (see "## Left out"). |
| `Routes.UploadCampConsistent` | mongoDB.js:147-151 | from a consistent store, an upload keeps consistency exactly when the caller is refused, or the uploaded counter equals the registrations already naming the new `_id` |
| `Routes.DeleteCamp` | mongoDB.js:174-179 | a non-admin gets 403 and nothing changes. For an admin, the reply counts the deleted camp and the camps shrink by that count; users and registrations are untouched. Gated by the corrected `Auth.VerifyAdmin` (see "## Left out"). |
| `Routes.DeleteCampOnlyThatCamp` | mongoDB.js:174-179 | needs a well-formed store (unique `_id`s, all below the next one) and an admin caller. The camp with that `_id` is gone, and all other camps, users and registrations remain. A deleted camp's registrations are not removed, and a consistent store stays consistent. |
| `Routes.DeleteUser` | mongoDB.js:139-144 | a non-admin gets 403 and nothing changes. For an admin, the reply counts the deleted user and the users shrink by that count; camps and registrations are untouched. Gated by the corrected `Auth.VerifyAdmin` (see "## Left out"). |
| `Routes.DeleteUserOnlyThatUser` | mongoDB.js:139-144 | needs a well-formed store (unique `_id`s, all below the next one) and an admin caller. The user with that `_id` is gone, and all other users, camps and registrations remain. A consistent store stays consistent. |
| `Routes.Register` | mongoDB.js:182-198 | the reply is `{acknowledged: false}` exactly when the pair is already registered, and then nothing changes. Otherwise the new `_id` is returned. Users are never touched. |
| `Routes.RegisterNewPair` | mongoDB.js:190-195 | a new pair adds exactly one registration, raises its camp's count and `participants` by one, and leaves every other camp unchanged |
| `Routes.RegisterUnknownCamp` | mongoDB.js:191-195 | a registration for a camp that does not exist is stored but changes no camp |
| `Routes.PairCountAppend` | mongoDB.js:191 | inserting a registration raises only its own pair's count |
| `Routes.RegisterPreservesConsistent` | mongoDB.js:182-198 | one registration call keeps unique pairs, and keeps every existing camp's counter equal to its registrations |
| `Routes.RegisterAll` | mongoDB.js:182-198 | successive registration calls never touch users, and allocate at most one `_id` each |
| `Routes.RegisterAllPreservesConsistent` | mongoDB.js:182-198 | any sequence of registration calls keeps the store consistent |
| `Routes.RegisterTwiceStoresOnce` | mongoDB.js:184-189 | registering the same new pair twice stores it once. The second call is refused and changes nothing. |
| `Routes.RegistrationScenario` | mongoDB.js:182-198 | a camp at 0 goes to 1 and 2 after two new pairs, and stays at 2 when the first pair is refused |
| `Server.Store.constructor` | mongoDB.js:47-50 | empty collections form a consistent store |
| `Server.Store.InsertOneUser` | mongoDB.js:80 | `insertOne` appends the body under the next store-generated `_id`, returns that `_id` and touches no other collection |
| `Server.Store.InsertOneCamp` | mongoDB.js:149 | `insertOne` appends the body under the next store-generated `_id`, returns that `_id` and touches no other collection |
| `Server.Store.InsertOneRegistration` | mongoDB.js:191 | `insertOne` appends the body under the next store-generated `_id`, returns that `_id` and touches no other collection |
| `Server.Store.IncParticipantsOf` | mongoDB.js:192-195 | the camps become `IncParticipants` of the old camps; the matched count is 1 exactly when a camp has the `_id` |
| `Server.Store.DeleteOneUser` | mongoDB.js:142 | users become `DeleteOne` of the old users; `_id`s stay fresh and unique |
| `Server.Store.DeleteOneCamp` | mongoDB.js:177 | camps become `DeleteOne` of the old camps; `_id`s stay fresh and unique |
| `Server.Store.Login` | mongoDB.js:74-91 | the in-place handler yields `Routes.Login`'s state, always replies `{success: true}`, and keeps consistency |
| `Server.Store.UploadCamp` | mongoDB.js:147-151 | the in-place handler yields `Routes.UploadCamp`'s state and reply. Gated by the corrected `Auth.VerifyAdmin` (see "## Left out"). |
| `Server.Store.DeleteCamp` | mongoDB.js:174-179 | the in-place handler yields `Routes.DeleteCamp`'s state and reply, and keeps consistency. Gated by the corrected `Auth.VerifyAdmin` (see "## Left out"). |
| `Server.Store.DeleteUser` | mongoDB.js:139-144 | the in-place handler yields `Routes.DeleteUser`'s state and reply, and keeps consistency. Gated by the corrected `Auth.VerifyAdmin` (see "## Left out"). |
| `Server.Store.RegisterCampaign` | mongoDB.js:182-198 | the handler runs the lookup, the insert and then the `$inc`. It yields `Routes.Register`'s state and reply, and keeps consistency. |

## Left out

- Authentication: `verifyToken`, JWT signing and verification, and cookie
  setting and clearing (`mongoDB.js:21-33`, `82-90`, `94-101`). Each route
  gets the decoded identity as a parameter. `POST /logout` touches no
  collection.
- Process and driver set-up: `index.js` (Express, CORS, JSON and cookie
  middleware, `listen`) and the client connect and ping (`mongoDB.js:10-19`,
  `35-44`). The model starts from empty collections.
- ObjectId parsing. Ids are abstract naturals handed out by a counter.
  `new ObjectId(campId)` throwing on a malformed id, after the registration
  was already inserted, is not modelled. A registration stores `campId` as the
  request's string. The duplicate lookup (`mongoDB.js:184`) compares that
  string, but the `$inc` (`mongoDB.js:193`) parses it. So hex spellings that
  differ only in letter case name the same camp, and the same camp and email
  can pass the lookup twice and be counted twice. The model's single-valued
  ids do not capture this.
- A camp's `participants` holding a non-number, which makes `$inc` fail, is
  not modelled. The counter is an optional unbounded integer, so MongoDB's
  int32/int64 widths are not modelled either.
- Listing routes that return a whole collection (`GET /users`, `GET /camps`,
  `GET /camp/:id`) only read the tables and are not modelled.
- The empty `PATCH /update-camp/:campId` stub never answers, and the
  make-admin route is commented out. Neither is modelled.
- Concurrency. The model runs one request at a time, so the race between
  two registrations that both pass the lookup is not modelled.
- Mongo filters with an undefined `email` or `campId` are not modelled. The
  model's request bodies always carry these fields.
- Routes.Login: the login body's `email` is taken to be a string. A JSON
  object there is read by MongoDB as a query operator. With `{$ne: null}`,
  `findOne` matches any existing user, so no record is inserted. On an empty
  `users` collection the object itself would be stored as an email. The token
  signed over that body is what the finding below is about.
- Routes.Register: the body's `campId` and `email` are taken to be plain
  values. A JSON object there is read as a query operator. For example,
  `email: {$ne: null}` matches any registration for that camp. If the camp
  already has one, the call is refused. If it has none, the object is stored
  as the registration's email and the `$inc` runs.
- Routes.UploadCamp, Routes.DeleteCamp, Routes.DeleteUser,
  Server.Store.UploadCamp, Server.Store.DeleteCamp, Server.Store.DeleteUser:
  these admin routes are gated by the corrected `Auth.VerifyAdmin`, not by
  `verifyAdmin` as written (`Auth.VerifyAdminAsWritten`). The two gates agree
  on every string token email (`Auth.VerifyAdminAsWritten` ensures this). They
  differ only on a `{$ne: null}` token, which the handlers admit when the first
  user is an admin (see "## Findings"). The model refuses that token with 403
  and leaves the store unchanged, where the handlers would go on to
  `insertOne` (`mongoDB.js:149`) or `deleteOne` (`mongoDB.js:142`, `177`).
- Of the query operators a JSON request value can carry, only `{$ne: null}`
  is represented. `$gt`, `$regex` and `$in` select other users in the same
  way.
- Client-chosen `_id`s: `insertOne` stores the raw request body
  (`mongoDB.js:149`, `191`). A body carrying `_id` is stored under that
  `_id`, and the reply's `insertedId` is that value. The model always uses
  the next store-generated `_id`.
- Duplicate-key failure: an `insertOne` whose body repeats an existing `_id`
  is rejected. In `POST /register-campaign` that happens before the `$inc`,
  so the counter is not raised and no reply is sent. The model does not
  represent this failure.
- Routes.RegisterAllPreservesConsistent, Routes.RegisterPreservesConsistent,
  Server.Store.RegisterCampaign: every `findOne`, `insertOne`, `updateOne`
  and `deleteOne` is taken to succeed. The handlers have no error handling.
  Suppose the `$inc` (`mongoDB.js:192-195`) fails after the registration was
  inserted (`mongoDB.js:191`), for instance through a network error or a
  timeout. Then the registration stays stored, that camp's `participants` is
  one below its registrations, and no reply is sent. The invariant lemmas
  hold only under the assumption that no store call fails.
- Cancelling a registration, payments, feedback and ranking have no handler
  in `mongoDB.js`, so none of them is modelled.

## Findings

| source | as written | input that shows it | evidently intended | confidence | as-written member | corrected member |
|---|---|---|---|---|---|---|
| mongoDB.js:62-71 | `verifyAdmin` puts the token's `email` into `findOne({email})` unchecked. The token is signed over the raw login body (mongoDB.js:82), so that email can be a JSON object, which MongoDB reads as a query operator. | Log in with the body `{"email": {"$ne": null}}`, then call `DELETE /delete/:id` with the token. `findOne` returns the first user; if that user is an admin, the request passes, though no user has the caller's email. | Only a caller whose own user record, found by the caller's string email, has role `"admin"` passes. | not executed; the operator reading of object filter values is standard MongoDB behaviour | `Auth.VerifyAdminAsWritten` | `Auth.VerifyAdmin` |

=== FILE: auth.dfy ===
/** The authorisation decisions the routes make once the caller's token has
    been decoded: `verifyEmail`, `verifyAdmin` and the `/check/:email` flag. */
module Auth {
  import opened Documents
  import opened Collections

  /** No two `users` documents share an email. */
  ghost predicate UniqueEmails(users: Collection<User>)
  {
    forall i, j :: 0 <= i < j < |users| ==> users[i].body.email != users[j].body.email
  }

  /** `user?.role === "admin"` for the user `findOne({email})` returns: false
      when there is no such user. */
  function IsAdmin(users: Collection<User>, email: string): (b: bool)
    ensures b ==> exists i :: 0 <= i < |users| && users[i].body.email == email && users[i].body.role == AdminRole
    ensures (forall i :: 0 <= i < |users| ==> users[i].body.email != email) ==> !b
  {
    var found := FindOne(users, EmailIs(email));
    found.Some? && found.value.body.role == AdminRole
  }

  /** While emails are unique, the admin decision is exactly "some user with
      that email has role admin". */
  lemma IsAdminExactly(users: Collection<User>, email: string)
    requires UniqueEmails(users)
    ensures IsAdmin(users, email) <==>
              exists i :: 0 <= i < |users| && users[i].body.email == email && users[i].body.role == AdminRole
  {
  }

  /** `verifyEmail`: the `:email` path parameter (always a string) must be
      the caller's own email; a token email that is not a string never equals it. */
  function VerifyEmail(pathEmail: string, caller: Identity): (g: Gate)
    ensures g == Next <==> caller.email == Text(pathEmail)
    ensures g != Next ==> g == Halt(Denied(Forbidden, "Unauthorized Access"))
  {
    if caller.email != Text(pathEmail) then Halt(Denied(Forbidden, "Unauthorized Access")) else Next
  }

  /** The filter `{email: req.user.email}` as MongoDB reads it: a string
      selects users with that email, while `{$ne: null}` selects every user,
      since every stored email is a string. */
  function TokenEmailFilter(v: Field): User -> bool
  {
    match v
    case Text(email) => EmailIs(email)
    case NotNullQuery => (u: User) => true
  }

  /** `verifyAdmin` as written: the token's email goes into the `findOne`
      filter unchecked, and the request passes when the user found is an admin.
      For a string email it decides exactly as the corrected gate does; a
      `{$ne: null}` email passes exactly when the first user is an admin. */
  function VerifyAdminAsWritten(users: Collection<User>, caller: Identity): (g: Gate)
    ensures g == Next ==>
              exists i :: 0 <= i < |users| && TokenEmailFilter(caller.email)(users[i].body) && users[i].body.role == AdminRole
    ensures g != Next ==> g == Halt(Denied(Forbidden, "Forbidden Access"))
    ensures caller.email.Text? ==> g == VerifyAdmin(users, caller)
    ensures caller.email == NotNullQuery ==> (g == Next <==> |users| > 0 && users[0].body.role == AdminRole)
  {
    var found := FindOne(users, TokenEmailFilter(caller.email));
    assert caller.email == NotNullQuery && |users| > 0 ==> FindIndex(users, TokenEmailFilter(caller.email)) == 0;
    if found.Some? && found.value.body.role == AdminRole then Next else Halt(Denied(Forbidden, "Forbidden Access"))
  }

  /** As written, a token obtained by logging in with the body
      `{"email": {"$ne": null}}` passes `verifyAdmin` whenever the first user
      is an admin, although that object equals no stored email (every stored
      email is a string); the corrected gate refuses it. */
  lemma {:induction false} OperatorTokenPassesAsWritten(users: Collection<User>)
    requires |users| > 0 && users[0].body.role == AdminRole
    ensures VerifyAdminAsWritten(users, Identity(NotNullQuery)) == Next
    ensures VerifyAdmin(users, Identity(NotNullQuery)) == Halt(Denied(Forbidden, "Forbidden Access"))
  {
  }

  /** `verifyAdmin`, corrected: only a caller whose token email is a string
      and whose own user record has role admin gets through; everyone else,
      including a caller with no user record, gets 403. */
  function VerifyAdmin(users: Collection<User>, caller: Identity): (g: Gate)
    ensures g == Next ==>
              && caller.email.Text?
              && exists i :: 0 <= i < |users| && users[i].body.email == caller.email.s && users[i].body.role == AdminRole
    ensures g != Next ==> g == Halt(Denied(Forbidden, "Forbidden Access"))
    ensures (forall i :: 0 <= i < |users| ==> Text(users[i].body.email) != caller.email) ==> g != Next
    ensures UniqueEmails(users) ==>
              (g == Next <==>
                 && caller.email.Text?
                 && exists i :: 0 <= i < |users| && users[i].body.email == caller.email.s && users[i].body.role == AdminRole)
  {
    match caller.email
    case NotNullQuery => Halt(Denied(Forbidden, "Forbidden Access"))
    case Text(email) =>
      assert UniqueEmails(users) ==>
               (IsAdmin(users, email) <==>
                  exists i :: 0 <= i < |users| && users[i].body.email == email && users[i].body.role == AdminRole) by {
        if UniqueEmails(users) {
          IsAdminExactly(users, email);
        }
      }
      if !IsAdmin(users, email) then Halt(Denied(Forbidden, "Forbidden Access")) else Next
  }

  /** `GET /check/:email` after `verifyEmail`: the caller may only ask about
      themself, and the flag it gets agrees with what `verifyAdmin` decides. */
  function CheckAdmin(users: Collection<User>, caller: Identity, pathEmail: string): (r: Response)
    ensures caller.email != Text(pathEmail) ==> r == Denied(Forbidden, "Unauthorized Access")
    ensures caller.email == Text(pathEmail) ==>
              r.AdminFlag? && (r.admin <==> VerifyAdmin(users, caller) == Next)
  {
    match VerifyEmail(pathEmail, caller)
    case Halt(denied) => denied
    case Next => AdminFlag(IsAdmin(users, pathEmail))
  }
}

=== FILE: collections.dfy ===
/** The collection operations the handlers use (`findOne`, `insertOne`,
    `updateOne` with `$inc`, `deleteOne`), over a collection held in memory in
    natural order, and the counting the participant invariant talks about. */
module Collections {
  import opened Documents

  /** Some document of `c` has `_id` equal to `id`. */
  ghost predicate HasId<T>(c: Collection<T>, id: Id)
  {
    exists i :: 0 <= i < |c| && c[i].id == id
  }

  /** No two documents of `c` share an `_id`. */
  ghost predicate UniqueIds<T>(c: Collection<T>)
  {
    forall i, j :: 0 <= i < j < |c| ==> c[i].id != c[j].id
  }

  /** Every `_id` in `c` is below `n`, so `n` is free for the next insert. */
  ghost predicate IdsBelow<T>(c: Collection<T>, n: nat)
  {
    forall i :: 0 <= i < |c| ==> c[i].id < n
  }

  /** The position of the first document with `_id` equal to `id`, or `|c|`. */
  function IndexOfId<T>(c: Collection<T>, id: Id): (k: nat)
    ensures k <= |c|
    ensures forall j :: 0 <= j < k ==> c[j].id != id
    ensures k < |c| ==> c[k].id == id
  {
    if c == [] then 0
    else if c[0].id == id then 0
    else 1 + IndexOfId(c[1..], id)
  }

  /** The position of the first document whose body matches the filter `f`, or `|c|`. */
  function FindIndex<T>(c: Collection<T>, f: T -> bool): (k: nat)
    ensures k <= |c|
    ensures forall j :: 0 <= j < k ==> !f(c[j].body)
    ensures k < |c| ==> f(c[k].body)
  {
    if c == [] then 0
    else if f(c[0].body) then 0
    else 1 + FindIndex(c[1..], f)
  }

  /** `findOne(filter)`: the first matching document in natural order, if any. */
  function FindOne<T>(c: Collection<T>, f: T -> bool): (r: Option<Doc<T>>)
    ensures r.None? <==> forall i :: 0 <= i < |c| ==> !f(c[i].body)
    ensures r.Some? ==> r.value in c && f(r.value.body)
  {
    var k := FindIndex(c, f);
    if k < |c| then Some(c[k]) else None
  }

  /** The filter `{email}` on `users`. */
  function EmailIs(email: string): User -> bool
  {
    (u: User) => u.email == email
  }

  /** The filter `{campId, email}` on `registered_users`. */
  function RegistrationIs(campId: Id, email: string): Registration -> bool
  {
    (r: Registration) => r.campId == campId && r.email == email
  }

  /** `deleteOne({_id: id})`: the collection without the first document with
      that `_id`, in the same order, and the number of documents removed. */
  function DeleteOne<T>(c: Collection<T>, id: Id): (r: (Collection<T>, nat))
    ensures r.1 == (if HasId(c, id) then 1 else 0)
    ensures |r.0| == |c| - r.1
    ensures forall i :: 0 <= i < |r.0| ==> r.0[i] == c[if i < IndexOfId(c, id) then i else i + 1]
  {
    if c == [] then ([], 0)
    else if c[0].id == id then (c[1..], 1)
    else
      var rest := DeleteOne(c[1..], id);
      ([c[0]] + rest.0, rest.1)
  }

  /** With unique `_id`s, `deleteOne` removes every document with that `_id`
      and keeps every other one, and the `_id`s stay unique. */
  lemma DeleteOneExactly<T>(c: Collection<T>, id: Id)
    requires UniqueIds(c)
    ensures UniqueIds(DeleteOne(c, id).0)
    ensures !HasId(DeleteOne(c, id).0, id)
    ensures forall i :: 0 <= i < |c| && c[i].id != id ==> c[i] in DeleteOne(c, id).0
  {
  }

  /** The `$inc: {participants: 1}` update of one camp document; a missing
      counter is created with the value 1. */
  function Inc(c: Camp): (r: Camp)
    ensures ParticipantCount(r) == ParticipantCount(c) + 1
    ensures r.fields == c.fields && r.participants.Some?
  {
    match c.participants
    case None => c.(participants := Some(1))
    case Some(n) => c.(participants := Some(n + 1))
  }

  /** `updateOne({_id: id}, {$inc: {participants: 1}})`: the first camp with
      that `_id` is incremented; without a match nothing changes. */
  function IncParticipants(camps: Collection<Camp>, id: Id): (r: Collection<Camp>)
    ensures |r| == |camps|
    ensures forall i :: 0 <= i < |camps| ==> r[i].id == camps[i].id
    ensures forall i :: 0 <= i < |camps| && i != IndexOfId(camps, id) ==> r[i] == camps[i]
    ensures IndexOfId(camps, id) < |camps| ==>
              r[IndexOfId(camps, id)].body == Inc(camps[IndexOfId(camps, id)].body)
  {
    var k := IndexOfId(camps, id);
    if k < |camps| then camps[k := Doc(id, Inc(camps[k].body))] else camps
  }

  /** With unique `_id`s, `IncParticipants` touches exactly the camps whose `_id` is `id`. */
  lemma IncParticipantsExactly(camps: Collection<Camp>, id: Id)
    requires UniqueIds(camps)
    ensures forall i :: 0 <= i < |camps| ==>
              IncParticipants(camps, id)[i] ==
                (if camps[i].id == id then Doc(id, Inc(camps[i].body)) else camps[i])
    ensures !HasId(camps, id) ==> IncParticipants(camps, id) == camps
  {
  }

  /** The number of registrations naming camp `campId`. */
  function CountFor(regs: Collection<Registration>, campId: Id): (n: nat)
    ensures n <= |regs|
    ensures n == 0 <==> forall i :: 0 <= i < |regs| ==> regs[i].body.campId != campId
  {
    if regs == [] then 0
    else (if regs[0].body.campId == campId then 1 else 0) + CountFor(regs[1..], campId)
  }

  /** Appending a registration raises the count of its own camp by one and no other. */
  lemma {:induction false} CountForAppend(regs: Collection<Registration>, d: Doc<Registration>, campId: Id)
    ensures CountFor(regs + [d], campId) ==
              CountFor(regs, campId) + (if d.body.campId == campId then 1 else 0)
  {
    if regs == [] {
      assert [] + [d] == [d];
    } else {
      assert (regs + [d])[1..] == regs[1..] + [d];
      CountForAppend(regs[1..], d, campId);
    }
  }
}

=== FILE: documents.dfy ===
/** The documents kept in the server's three collections (`users`, `camps`,
    `registered_users`), the identity a request carries, and the replies the
    handlers send back. */
module Documents {

  datatype Option<+T> = None | Some(value: T)

  /** A store-generated document identifier (an ObjectId, kept abstract). */
  type Id = nat

  /** A stored document: the `_id` the store assigned and the body that was inserted. */
  datatype Doc<+T> = Doc(id: Id, body: T)

  /** A collection, in natural (insertion) order. */
  type Collection<T> = seq<Doc<T>>

  /** Request fields a handler stores without inspecting them. */
  type Fields = map<string, string>

  /** A `users` document: `{email, role}`. */
  datatype User = User(email: string, role: string)

  /** A `camps` document: the `participants` counter, absent until the first
      `$inc` unless the uploaded body carried one, and the other fields. */
  datatype Camp = Camp(participants: Option<int>, fields: Fields)

  /** A `registered_users` document: the request body, of which the handler
      reads `campId` and `email`. */
  datatype Registration = Registration(campId: Id, email: string, fields: Fields)

  /** A request value as `express.json()` hands it over: a string, or a JSON
      object that MongoDB reads as a query operator when it is used as a filter
      value. Of the operators only `{$ne: null}` is represented. */
  datatype Field = Text(s: string) | NotNullQuery

  /** The decoded token attached to a request (`req.user`). The token is
      signed over the login body, so its email is whatever that body held. */
  datatype Identity = Identity(email: Field)

  /** What a handler sends back. */
  datatype Response =
    | Denied(status: int, message: string)   // a middleware stopped the request
    | Success                                 // `{success: true}`
    | InsertAck(insertedId: Id)               // an acknowledged `insertOne` result
    | DeleteAck(deletedCount: nat)            // an acknowledged `deleteOne` result
    | NotAcknowledged                         // `{acknowledged: false}`
    | AdminFlag(admin: bool)                  // `{admin}`

  /** What a middleware decides: call `next()`, or answer and stop. */
  datatype Gate = Next | Halt(response: Response)

  const AdminRole := "admin"
  const ParticipantRole := "participant"
  const Forbidden := 403

  /** The number of participants a camp document shows; a missing field reads as 0. */
  function ParticipantCount(c: Camp): int
  {
    match c.participants
    case None => 0
    case Some(n) => n
  }
}

=== FILE: routes.dfy ===
/** The route handlers that change the collections, as transitions of the
    whole store: login, camp upload and deletion, user deletion and campaign
    registration. `Db` is the content of the three collections together with
    the source of fresh `_id`s. */
module Routes {
  import opened Documents
  import opened Collections
  import opened Auth

  datatype Db = Db(users: Collection<User>,
                   camps: Collection<Camp>,
                   registrations: Collection<Registration>,
                   nextId: Id)

  /** Store-generated `_id`s: unique within each collection and below `nextId`. */
  ghost predicate WellFormed(db: Db)
  {
    && IdsBelow(db.users, db.nextId) && UniqueIds(db.users)
    && IdsBelow(db.camps, db.nextId) && UniqueIds(db.camps)
    && IdsBelow(db.registrations, db.nextId) && UniqueIds(db.registrations)
  }

  /** At most one registration per (camp, email) pair. */
  ghost predicate UniquePairs(regs: Collection<Registration>)
  {
    forall i, j :: 0 <= i < j < |regs| ==>
      regs[i].body.campId != regs[j].body.campId || regs[i].body.email != regs[j].body.email
  }

  /** Every existing camp shows as many participants as there are registrations naming it. */
  ghost predicate CountersMatch(camps: Collection<Camp>, regs: Collection<Registration>)
  {
    forall i :: 0 <= i < |camps| ==> ParticipantCount(camps[i].body) == CountFor(regs, camps[i].id)
  }

  /** The bookkeeping the handlers are meant to keep. */
  ghost predicate Consistent(db: Db)
  {
    && WellFormed(db)
    && UniqueEmails(db.users)
    && UniquePairs(db.registrations)
    && CountersMatch(db.camps, db.registrations)
  }

  /** The number of registrations for the pair (campId, email). */
  function PairCount(regs: Collection<Registration>, campId: Id, email: string): (n: nat)
    ensures n == 0 <==> FindOne(regs, RegistrationIs(campId, email)).None?
  {
    if regs == [] then 0
    else (if RegistrationIs(campId, email)(regs[0].body) then 1 else 0) + PairCount(regs[1..], campId, email)
  }

  // ---------------------------------------------------------------------------
  // POST /login

  /** The user-creating part of `POST /login`: a `{email, role: "participant"}`
      record is inserted only when no user has that email. The token and the
      cookie it then sets are not part of the store, and the reply is always
      `{success: true}`. */
  function Login(db: Db, email: string): (db': Db)
    ensures db'.camps == db.camps && db'.registrations == db.registrations
    ensures |db.users| <= |db'.users| && db'.users[..|db.users|] == db.users
    ensures FindOne(db'.users, EmailIs(email)).Some?
  {
    if FindOne(db.users, EmailIs(email)).Some? then db
    else
      var users' := db.users + [Doc(db.nextId, User(email, ParticipantRole))];
      assert EmailIs(email)(users'[|db.users|].body);
      db.(users := users', nextId := db.nextId + 1)
  }

  /** A second login with the same email changes nothing. */
  lemma LoginIdempotent(db: Db, email: string)
    ensures Login(Login(db, email), email) == Login(db, email)
  {
  }

  /** Login never alters an existing user: a known email leaves `users`
      unchanged, and a new one gets exactly one record, as a participant,
      so it is not an admin. */
  lemma LoginCreatesParticipant(db: Db, email: string)
    ensures FindOne(db.users, EmailIs(email)).Some? ==> Login(db, email) == db
    ensures FindOne(db.users, EmailIs(email)).None? ==>
              && Login(db, email).users == db.users + [Doc(db.nextId, User(email, ParticipantRole))]
              && !IsAdmin(Login(db, email).users, email)
  {
  }

  /** Login keeps the bookkeeping; in particular emails stay unique. */
  lemma LoginPreservesConsistent(db: Db, email: string)
    requires Consistent(db)
    ensures Consistent(Login(db, email))
  {
  }

  // ---------------------------------------------------------------------------
  // Admin routes: POST /upload-camp, DELETE /delete-camp/:campId, DELETE /delete/:id

  /** `POST /upload-camp` behind `verifyAdmin`: the body is stored as a new camp. */
  function UploadCamp(db: Db, caller: Identity, camp: Camp): (r: (Db, Response))
    ensures VerifyAdmin(db.users, caller) != Next ==> r == (db, Denied(Forbidden, "Forbidden Access"))
    ensures VerifyAdmin(db.users, caller) == Next ==>
              && r.1 == InsertAck(db.nextId) && r.0.nextId == db.nextId + 1
              && |r.0.camps| == |db.camps| + 1 && r.0.camps[..|db.camps|] == db.camps
              && r.0.camps[|db.camps|] == Doc(db.nextId, camp)
              && r.0.users == db.users && r.0.registrations == db.registrations
  {
    match VerifyAdmin(db.users, caller)
    case Halt(denied) => (db, denied)
    case Next =>
      (db.(camps := db.camps + [Doc(db.nextId, camp)], nextId := db.nextId + 1), InsertAck(db.nextId))
  }

  /** Uploading a camp keeps the bookkeeping exactly when the uploaded
      counter agrees with the registrations that already name the new `_id`
      (none, unless a registration named a camp that did not exist yet). */
  lemma UploadCampConsistent(db: Db, caller: Identity, camp: Camp)
    requires Consistent(db)
    ensures Consistent(UploadCamp(db, caller, camp).0) <==>
              (VerifyAdmin(db.users, caller) != Next ||
               ParticipantCount(camp) == CountFor(db.registrations, db.nextId))
  {
  }

  /** `DELETE /delete-camp/:campId` behind `verifyAdmin`: removes that camp
      only; its registrations stay. */
  function DeleteCamp(db: Db, caller: Identity, id: Id): (r: (Db, Response))
    ensures VerifyAdmin(db.users, caller) != Next ==> r == (db, Denied(Forbidden, "Forbidden Access"))
    ensures VerifyAdmin(db.users, caller) == Next ==>
              && r.1 == DeleteAck(if HasId(db.camps, id) then 1 else 0)
              && |r.0.camps| == |db.camps| - r.1.deletedCount
              && r.0.users == db.users && r.0.registrations == db.registrations && r.0.nextId == db.nextId
  {
    match VerifyAdmin(db.users, caller)
    case Halt(denied) => (db, denied)
    case Next =>
      var (camps', n) := DeleteOne(db.camps, id);
      (db.(camps := camps'), DeleteAck(n))
  }

  /** After deleting a camp no camp has that `_id`, every other camp and every
      user and registration is still there, and a consistent store stays
      consistent. Only unique `_id`s are needed for the removal itself. */
  lemma DeleteCampOnlyThatCamp(db: Db, caller: Identity, id: Id)
    requires WellFormed(db)
    requires VerifyAdmin(db.users, caller) == Next
    ensures var db' := DeleteCamp(db, caller, id).0;
            && !HasId(db'.camps, id)
            && (forall i :: 0 <= i < |db.camps| && db.camps[i].id != id ==> db.camps[i] in db'.camps)
            && db'.users == db.users && db'.registrations == db.registrations
            && WellFormed(db')
            && (Consistent(db) ==> Consistent(db'))
  {
    DeleteOneExactly(db.camps, id);
    var db' := DeleteCamp(db, caller, id).0;
    var k := IndexOfId(db.camps, id);
    forall i | 0 <= i < |db'.camps|
      ensures db'.camps[i] == db.camps[if i < k then i else i + 1]
    {
    }
  }

  /** `DELETE /delete/:id` behind `verifyAdmin`: removes that user only. */
  function DeleteUser(db: Db, caller: Identity, id: Id): (r: (Db, Response))
    ensures VerifyAdmin(db.users, caller) != Next ==> r == (db, Denied(Forbidden, "Forbidden Access"))
    ensures VerifyAdmin(db.users, caller) == Next ==>
              && r.1 == DeleteAck(if HasId(db.users, id) then 1 else 0)
              && |r.0.users| == |db.users| - r.1.deletedCount
              && r.0.camps == db.camps && r.0.registrations == db.registrations && r.0.nextId == db.nextId
  {
    match VerifyAdmin(db.users, caller)
    case Halt(denied) => (db, denied)
    case Next =>
      var (users', n) := DeleteOne(db.users, id);
      (db.(users := users'), DeleteAck(n))
  }

  /** After deleting a user no user has that `_id`, every other user and all
      camps and registrations are still there, and a consistent store stays
      consistent. Only unique `_id`s are needed for the removal itself. */
  lemma DeleteUserOnlyThatUser(db: Db, caller: Identity, id: Id)
    requires WellFormed(db)
    requires VerifyAdmin(db.users, caller) == Next
    ensures var db' := DeleteUser(db, caller, id).0;
            && !HasId(db'.users, id)
            && (forall i :: 0 <= i < |db.users| && db.users[i].id != id ==> db.users[i] in db'.users)
            && db'.camps == db.camps && db'.registrations == db.registrations
            && WellFormed(db')
            && (Consistent(db) ==> Consistent(db'))
  {
    DeleteOneExactly(db.users, id);
    var db' := DeleteUser(db, caller, id).0;
    var k := IndexOfId(db.users, id);
    forall i, j | 0 <= i < j < |db'.users| && UniqueEmails(db.users)
      ensures db'.users[i].body.email != db'.users[j].body.email
    {
      assert db'.users[i] == db.users[if i < k then i else i + 1];
      assert db'.users[j] == db.users[if j < k then j else j + 1];
    }
    forall i | 0 <= i < |db'.users|
      ensures db'.users[i].id < db.nextId
    {
      assert db'.users[i] == db.users[if i < k then i else i + 1];
    }
  }

  // ---------------------------------------------------------------------------
  // POST /register-campaign

  /** `POST /register-campaign`: a pair that is already registered is refused
      with `{acknowledged: false}` and nothing changes; otherwise the body is
      inserted and then the camp's `participants` is incremented. */
  function Register(db: Db, reg: Registration): (r: (Db, Response))
    ensures r.0.users == db.users
    ensures r.1 == NotAcknowledged <==> PairCount(db.registrations, reg.campId, reg.email) > 0
    ensures r.1 == NotAcknowledged ==> r.0 == db
    ensures r.1 != NotAcknowledged ==> r.1 == InsertAck(db.nextId) && r.0.nextId == db.nextId + 1
  {
    if FindOne(db.registrations, RegistrationIs(reg.campId, reg.email)).Some? then
      (db, NotAcknowledged)
    else
      var registrations' := db.registrations + [Doc(db.nextId, reg)];
      var camps' := IncParticipants(db.camps, reg.campId);
      (db.(registrations := registrations', camps := camps', nextId := db.nextId + 1), InsertAck(db.nextId))
  }

  /** A new pair adds exactly one registration, raises the participant count of
      the camp it names by one and leaves every other camp as it was. */
  lemma {:induction false} RegisterNewPair(db: Db, reg: Registration)
    requires WellFormed(db)
    requires PairCount(db.registrations, reg.campId, reg.email) == 0
    ensures var db' := Register(db, reg).0;
            && db'.registrations == db.registrations + [Doc(db.nextId, reg)]
            && PairCount(db'.registrations, reg.campId, reg.email) == 1
            && CountFor(db'.registrations, reg.campId) == CountFor(db.registrations, reg.campId) + 1
            && |db'.camps| == |db.camps|
            && (forall i :: 0 <= i < |db.camps| && db.camps[i].id == reg.campId ==>
                  db'.camps[i].id == reg.campId &&
                  ParticipantCount(db'.camps[i].body) == ParticipantCount(db.camps[i].body) + 1)
            && (forall i :: 0 <= i < |db.camps| && db.camps[i].id != reg.campId ==> db'.camps[i] == db.camps[i])
  {
    var db' := Register(db, reg).0;
    IncParticipantsExactly(db.camps, reg.campId);
    CountForAppend(db.registrations, Doc(db.nextId, reg), reg.campId);
    PairCountAppend(db.registrations, Doc(db.nextId, reg), reg.campId, reg.email);
  }

  /** A registration naming a camp that does not exist is still stored, but no
      camp counter moves. */
  lemma RegisterUnknownCamp(db: Db, reg: Registration)
    requires WellFormed(db)
    requires PairCount(db.registrations, reg.campId, reg.email) == 0
    requires !HasId(db.camps, reg.campId)
    ensures Register(db, reg).0.camps == db.camps
    ensures Register(db, reg).0.registrations == db.registrations + [Doc(db.nextId, reg)]
  {
  }

  /** Appending a registration raises the count of its own pair by one and no other. */
  lemma {:induction false} PairCountAppend(regs: Collection<Registration>, d: Doc<Registration>, campId: Id, email: string)
    ensures PairCount(regs + [d], campId, email) ==
              PairCount(regs, campId, email) + (if RegistrationIs(campId, email)(d.body) then 1 else 0)
  {
    if regs == [] {
      assert [] + [d] == [d];
    } else {
      assert (regs + [d])[1..] == regs[1..] + [d];
      PairCountAppend(regs[1..], d, campId, email);
    }
  }

  /** One registration call keeps the bookkeeping. */
  lemma RegisterPreservesConsistent(db: Db, reg: Registration)
    requires Consistent(db)
    ensures Consistent(Register(db, reg).0)
  {
    if PairCount(db.registrations, reg.campId, reg.email) == 0 {
      var db' := Register(db, reg).0;
      var d := Doc(db.nextId, reg);
      IncParticipantsExactly(db.camps, reg.campId);
      forall i | 0 <= i < |db'.camps|
        ensures ParticipantCount(db'.camps[i].body) == CountFor(db'.registrations, db'.camps[i].id)
      {
        CountForAppend(db.registrations, d, db.camps[i].id);
      }
      assert FindOne(db.registrations, RegistrationIs(reg.campId, reg.email)).None?;
      forall i | 0 <= i < |db.registrations|
        ensures db.registrations[i].body.campId != reg.campId || db.registrations[i].body.email != reg.email
      {
        assert !RegistrationIs(reg.campId, reg.email)(db.registrations[i].body);
      }
    }
  }

  /** The bodies of successive `POST /register-campaign` calls, applied in order. */
  function RegisterAll(db: Db, regs: seq<Registration>): (db': Db)
    ensures db'.users == db.users
    ensures db.nextId <= db'.nextId <= db.nextId + |regs|
    decreases |regs|
  {
    if regs == [] then db else RegisterAll(Register(db, regs[0]).0, regs[1..])
  }

  /** Any sequence of registration calls keeps the bookkeeping: unique pairs,
      and each existing camp's counter equal to its registrations. */
  lemma {:induction false} RegisterAllPreservesConsistent(db: Db, regs: seq<Registration>)
    requires Consistent(db)
    ensures Consistent(RegisterAll(db, regs))
    decreases |regs|
  {
    if regs != [] {
      RegisterPreservesConsistent(db, regs[0]);
      RegisterAllPreservesConsistent(Register(db, regs[0]).0, regs[1..]);
    }
  }

  /** Registering the same pair twice stores it once; the second call is refused. */
  lemma RegisterTwiceStoresOnce(db: Db, reg: Registration)
    requires WellFormed(db)
    requires PairCount(db.registrations, reg.campId, reg.email) == 0
    ensures var (db1, _) := Register(db, reg);
            var (db2, reply) := Register(db1, reg);
            && reply == NotAcknowledged && db2 == db1
            && PairCount(db2.registrations, reg.campId, reg.email) == 1
  {
    RegisterNewPair(db, reg);
  }

  /** A worked example: camp 0 starts with `participants: 0`; a@x.com and
      b@x.com register, then a@x.com tries again and is refused. */
  lemma RegistrationScenario(campFields: Fields, details: Fields)
    ensures var db0 := Db([], [Doc(0, Camp(Some(0), campFields))], [], 1);
            var a := Registration(0, "a@x.com", details);
            var b := Registration(0, "b@x.com", details);
            var (db1, r1) := Register(db0, a);
            var (db2, r2) := Register(db1, b);
            var (db3, r3) := Register(db2, a);
            && r1 == InsertAck(1) && db1.camps[0].body.participants == Some(1)
            && r2 == InsertAck(2) && db2.camps[0].body.participants == Some(2)
            && r3 == NotAcknowledged && db3.camps[0].body.participants == Some(2)
            && |db3.registrations| == 2
  {
  }
}

=== FILE: server.dfy ===
/** The server's handle on the three collections, updated in place by the
    route handlers one driver call at a time. */
module Server {
  import opened Documents
  import opened Collections
  import opened Auth
  import Routes

  class Store {
    var users: Collection<User>
    var camps: Collection<Camp>
    var registrations: Collection<Registration>
    var nextId: Id

    /** The content of the three collections. */
    function State(): Routes.Db
      reads this
    {
      Routes.Db(users, camps, registrations, nextId)
    }

    ghost predicate Valid()
      reads this
    {
      Routes.WellFormed(State())
    }

    constructor ()
      ensures Valid() && State() == Routes.Db([], [], [], 0)
      ensures Routes.Consistent(State())
    {
      users, camps, registrations, nextId := [], [], [], 0;
    }

    // -------------------------------------------------------------------------
    // Driver calls

    /** `users.insertOne(body)`: appends the body under a fresh `_id`. */
    method InsertOneUser(body: User) returns (insertedId: Id)
      requires Valid()
      modifies this
      ensures Valid()
      ensures insertedId == old(nextId) && nextId == old(nextId) + 1
      ensures users == old(users) + [Doc(insertedId, body)]
      ensures camps == old(camps) && registrations == old(registrations)
    {
      insertedId := nextId;
      users := users + [Doc(insertedId, body)];
      nextId := nextId + 1;
    }

    /** `camps.insertOne(body)`: appends the body under a fresh `_id`. */
    method InsertOneCamp(body: Camp) returns (insertedId: Id)
      requires Valid()
      modifies this
      ensures Valid()
      ensures insertedId == old(nextId) && nextId == old(nextId) + 1
      ensures camps == old(camps) + [Doc(insertedId, body)]
      ensures users == old(users) && registrations == old(registrations)
    {
      insertedId := nextId;
      camps := camps + [Doc(insertedId, body)];
      nextId := nextId + 1;
    }

    /** `registered_users.insertOne(body)`: appends the body under a fresh `_id`. */
    method InsertOneRegistration(body: Registration) returns (insertedId: Id)
      requires Valid()
      modifies this
      ensures Valid()
      ensures insertedId == old(nextId) && nextId == old(nextId) + 1
      ensures registrations == old(registrations) + [Doc(insertedId, body)]
      ensures users == old(users) && camps == old(camps)
    {
      insertedId := nextId;
      registrations := registrations + [Doc(insertedId, body)];
      nextId := nextId + 1;
    }

    /** `camps.updateOne({_id: id}, {$inc: {participants: 1}})`. */
    method IncParticipantsOf(id: Id) returns (matchedCount: nat)
      requires Valid()
      modifies this
      ensures Valid()
      ensures matchedCount == (if HasId(old(camps), id) then 1 else 0)
      ensures camps == IncParticipants(old(camps), id)
      ensures users == old(users) && registrations == old(registrations) && nextId == old(nextId)
    {
      matchedCount := if IndexOfId(camps, id) < |camps| then 1 else 0;
      camps := IncParticipants(camps, id);
    }

    /** `users.deleteOne({_id: id})`. */
    method DeleteOneUser(id: Id) returns (deletedCount: nat)
      requires Valid()
      modifies this
      ensures Valid()
      ensures (users, deletedCount) == DeleteOne(old(users), id)
      ensures camps == old(camps) && registrations == old(registrations) && nextId == old(nextId)
    {
      DeleteOneExactly(users, id);
      var k := IndexOfId(users, id);
      ghost var before := users;
      var result := DeleteOne(users, id);
      users, deletedCount := result.0, result.1;
      forall i | 0 <= i < |users| ensures users[i].id < nextId {
        assert users[i] == before[if i < k then i else i + 1];
      }
    }

    /** `camps.deleteOne({_id: id})`. */
    method DeleteOneCamp(id: Id) returns (deletedCount: nat)
      requires Valid()
      modifies this
      ensures Valid()
      ensures (camps, deletedCount) == DeleteOne(old(camps), id)
      ensures users == old(users) && registrations == old(registrations) && nextId == old(nextId)
    {
      DeleteOneExactly(camps, id);
      var k := IndexOfId(camps, id);
      ghost var before := camps;
      var result := DeleteOne(camps, id);
      camps, deletedCount := result.0, result.1;
      forall i | 0 <= i < |camps| ensures camps[i].id < nextId {
        assert camps[i] == before[if i < k then i else i + 1];
      }
    }

    // -------------------------------------------------------------------------
    // Route handlers

    /** `POST /login`, the store part: create the participant record if the
        email is new. */
    method Login(email: string) returns (response: Response)
      requires Valid()
      modifies this
      ensures Valid()
      ensures response == Success
      ensures State() == Routes.Login(old(State()), email)
      ensures old(Routes.Consistent(State())) ==> Routes.Consistent(State())
    {
      ghost var before := State();
      var findUser := FindOne(users, EmailIs(email));
      if findUser.None? {
        var insertedId := InsertOneUser(User(email, ParticipantRole));
      }
      response := Success;
      if Routes.Consistent(before) {
        Routes.LoginPreservesConsistent(before, email);
      }
    }

    /** `POST /upload-camp` behind `verifyAdmin`. */
    method UploadCamp(caller: Identity, body: Camp) returns (response: Response)
      requires Valid()
      modifies this
      ensures Valid()
      ensures (State(), response) == Routes.UploadCamp(old(State()), caller, body)
    {
      var gate := VerifyAdmin(users, caller);
      if gate.Halt? {
        return gate.response;
      }
      var insertedId := InsertOneCamp(body);
      response := InsertAck(insertedId);
    }

    /** `DELETE /delete-camp/:campId` behind `verifyAdmin`. */
    method DeleteCamp(caller: Identity, campId: Id) returns (response: Response)
      requires Valid()
      modifies this
      ensures Valid()
      ensures (State(), response) == Routes.DeleteCamp(old(State()), caller, campId)
      ensures old(Routes.Consistent(State())) ==> Routes.Consistent(State())
    {
      ghost var before := State();
      var gate := VerifyAdmin(users, caller);
      if gate.Halt? {
        return gate.response;
      }
      var deletedCount := DeleteOneCamp(campId);
      response := DeleteAck(deletedCount);
      Routes.DeleteCampOnlyThatCamp(before, caller, campId);
    }

    /** `DELETE /delete/:id` behind `verifyAdmin`. */
    method DeleteUser(caller: Identity, id: Id) returns (response: Response)
      requires Valid()
      modifies this
      ensures Valid()
      ensures (State(), response) == Routes.DeleteUser(old(State()), caller, id)
      ensures old(Routes.Consistent(State())) ==> Routes.Consistent(State())
    {
      ghost var before := State();
      var gate := VerifyAdmin(users, caller);
      if gate.Halt? {
        return gate.response;
      }
      var deletedCount := DeleteOneUser(id);
      response := DeleteAck(deletedCount);
      Routes.DeleteUserOnlyThatUser(before, caller, id);
    }

    /** `POST /register-campaign`: look the pair up, refuse it if present,
        otherwise insert the body and then increment the camp's counter. */
    method RegisterCampaign(body: Registration) returns (response: Response)
      requires Valid()
      modifies this
      ensures Valid()
      ensures (State(), response) == Routes.Register(old(State()), body)
      ensures old(Routes.Consistent(State())) ==> Routes.Consistent(State())
    {
      ghost var before := State();
      var isRegistered := FindOne(registrations, RegistrationIs(body.campId, body.email));
      if isRegistered.Some? {
        return NotAcknowledged;
      }
      var insertedId := InsertOneRegistration(body);
      var matchedCount := IncParticipantsOf(body.campId);
      response := InsertAck(insertedId);
      if Routes.Consistent(before) {
        Routes.RegisterPreservesConsistent(before, body);
      }
    }
  }
}
